=== FILE: README.md ===
# create_view: latest-snapshot view provisioning, modelled in Dafny

`create_view.py` takes the name of a volume group on a storage array. It finds
the group's latest snapshot and creates a *view* of it: an exposable copy
named after the snapshot with the suffix `_V`. When a second name is given,
it maps the view to the host with that name, or failing that to the host
group with that name.

The model treats the array as an immutable in-memory store (`Store.Store`).
The store holds one sequence per collection: volume groups, snapshots (views
included), hosts, host groups and mappings. It also holds the next free id.
The REST client's three calls become functions over the store:

- search returns the ids of the matching records in storage order (`Store.Hits`);
- get returns the first record stored under an id (`Store.Get`);
- create appends a record under a fresh id (`Store.CreateSnapshot`, `Store.CreateMapping`).

A run of the script is the pure function `Workflow.Execute`. It maps a store,
the command line and the array's admission rule to an outcome and the store
after the run. The outcome is `Done(view, mapping?)` or `Aborted(error)`, with
`UsageError`, `NotFound(lookup)` or `CreateFailed(creation)` as the error.

The array keeps ids unique within each collection (`Store.Valid`). Properties
that depend on this take it as a hypothesis. They include "the first hit's
record is the first record with that name" and "the snapshot picked has the
greatest id". The workflow itself does not require it.

Modules:

- `Wrappers` (wrappers.dfy): `Option` and `Result`.
- `Store` (store.dfy): records, the store, search/get/create.
- `Resolve` (resolve.dfy): `getVolume`/`getHost`/`getHostGroup` as `ResolveByName`, `getSnap` as `LatestSnapshot`, and the host-then-host-group fallback.
- `Workflow` (workflow.dfy): `createView`, split into its lookups (`Prepare`) and its saves (`Persist`), and the argument-count guard.
- `Properties` (properties.dfy): which records a run picks, and when each lookup fails.
- `Scenarios` (scenarios.dfy): concrete runs against a small example array, proved for every storage order of its records.

A failed target lookup creates nothing, not even the view. `createView`
resolves the target (line 98) before it saves the view (line 99). In the
model, a view is orphaned only when the array refuses the mapping after it
has accepted the view. In the script, any exception at line 100 after line
99 has saved orphans the view, a network error included.

## Model

| member | source | states |
|---|---|---|
| Store.Hits | python/create_view.py:49 | A search, here and at lines 39, 50, 61 and 74, returns as many hits as there are records passing the filter, so its count is the `total` read at line 49. Every hit is the id of a record that passes the filter, and every such record's id is among the hits. |
| Store.FirstHit | python/create_view.py:39 | `hits[0]` is the id of the first record, in storage order, that passes the filter. |
| Store.Get | python/create_view.py:39 | Get finds a record exactly when some record has the id, and the record found has that id. With unique ids it is the one record with that id. |
| Store.CreateSnapshot | python/create_view.py:99 | Saving a view appends exactly one snapshot with the draft's attributes and changes no other collection. The new id is not used by any existing snapshot, and the store invariant is kept. |
| Store.CreateMapping | python/create_view.py:100 | Saving a mapping appends exactly one mapping for the given volume and target under a fresh id. No other collection changes, and the store invariant is kept. |
| Resolve.ResolveByName | python/create_view.py:37-45 | A name resolves exactly when some record carries it. With unique ids, the result is the first record with that name (first hit, then get). |
| Resolve.Insert | python/create_view.py:50 | Inserting into an ascending id sequence keeps it ascending and adds exactly that id. |
| Resolve.SortAscending | python/create_view.py:50 | The `__sort` by id gives an ascending permutation of the hits. |
| Resolve.LastIsGreatest | python/create_view.py:49-50 | After sorting, the element at index total-1 is one of the hits and no hit is greater. |
| Resolve.LatestSnapshot | python/create_view.py:47-56 | A snapshot is selected exactly when the volume group has one. With unique ids, the selected snapshot has the group as its source and the greatest id among the group's snapshots. |
| Resolve.LastHitIsLatest | python/create_view.py:49-50 | With unique ids, the record stored under the last id of the ascending sort is a snapshot of the source with the greatest id among that source's snapshots. |
| Resolve.LatestIsUnique | python/create_view.py:49-50 | With unique ids, at most one snapshot of a source has the greatest id. |
| Resolve.LatestByMax | python/create_view.py:49-50 | A single max-by-id pass finds the latest snapshot of the group. With unique ids it agrees with sort-then-take-last on every input. |
| Resolve.ResolveTarget | python/create_view.py:58-80 | A target resolves exactly when a host or a host group has the name. An existing host always wins, and a host group is chosen only when no host has the name. With unique ids, each is the first record with the name in its collection. |
| Workflow.ViewDraft | python/create_view.py:89-94 | The unsaved view is sourced from the snapshot, named after it with "_V" appended, takes its retention policy and is exposable (`InheritsFrom`); it is the only draft with these four attributes. `Properties.PlannedViewOfLatestSnapshot` states which snapshot a run hands it. |
| Workflow.Prepare | python/create_view.py:85-98 | The lookups run in the order group, snapshot, target, and the first that fails aborts the run with its not-found error. The group lookup fails exactly when no volume group has the name. The target lookup can fail only when a target name was given, and a successful plan has a target exactly when one was given. |
| Workflow.Persist | python/create_view.py:96-102 | Saving the view and then the mapping. Success adds one view with the draft's attributes, plus one mapping to it exactly when there is a target. The view is refused exactly when the array does not admit the draft, and the store is then unchanged. The mapping is refused exactly when there is a target, the view was admitted, and the array, holding the saved view, does not admit the mapping of it; just the view, carrying the draft's attributes, is left behind. Existing records are never changed, and the invariant is kept. |
| Workflow.CreateView | python/create_view.py:82-102 | A failed lookup aborts the run with that lookup's error before anything is saved, so the store is unchanged. Once the lookups succeed, the run stops at the view exactly when the array does not admit the planned view, and at the mapping exactly when a target was given, the view was admitted and the array does not admit the mapping of the saved view; an array that admits everything never stops it. A finished run saved the planned view, plus one mapping of that view to the planned target exactly when a target was given. A refused mapping leaves behind the saved view, carrying the planned attributes. Existing records are never changed. |
| Workflow.Execute | python/create_view.py:108-117 | A usage error happens exactly when the command line does not have 2 or 3 entries, and it touches nothing. Success with 2 entries adds exactly one view and no mapping. Success with 3 entries adds exactly one view and one mapping. Existing records are never changed. |
| Properties.FirstNamedIsUnique | python/create_view.py:39 | "First record with a name" identifies a single record. |
| Properties.PlannedViewOfLatestSnapshot | python/create_view.py:86-94 | When the lookups succeed, the planned view is sourced from the latest snapshot of the first volume group with the name, and takes its short name plus "_V", its retention policy and exposability from it. |
| Properties.ViewOfLatestSnapshot | python/create_view.py:86-94 | The created view is sourced from the latest snapshot of the first volume group with the name. Its short name is the snapshot's plus "_V", its retention policy is the snapshot's, and it is exposable. |
| Properties.SnapshotLookupFails | python/create_view.py:47-54 | The snapshot lookup fails exactly when the volume group resolves but has no snapshot. |
| Properties.TargetLookupFails | python/create_view.py:58-80 | The target lookup fails exactly when a target was given, the group and a snapshot were found, and neither a host nor a host group has the name. |
| Properties.MappingTargetsHostFirst | python/create_view.py:58-70 | A mapping goes to the first host with the name when one exists. Otherwise it goes to the first host group with the name. |
| Properties.RerunSelectsSameSnapshot | python/create_view.py:89-90 | A created view has a snapshot, not the group, as its source. So after a successful run, every volume group's latest snapshot is unchanged. |
| Scenarios.LatestOfVg1IsTwelve | python/create_view.py:47-56 | Whatever order the array stores snapshots 10, 11 and 12 of "vg1" and snapshot 20 of another group in, snapshot 12 is selected for "vg1". |
| Scenarios.Vg1ResolvesToVg1 | python/create_view.py:37-45 | "vg1" resolves to volume group 1. |
| Scenarios.HostAResolvesToHost | python/create_view.py:58-70 | "hostA", a host's name, resolves to that host. |
| Scenarios.GroupBResolvesToHostGroup | python/create_view.py:58-80 | "groupB", which names no host, falls back to the host group with that name. |
| Scenarios.RunOfResolved | python/create_view.py:82-102 | On an array that accepts everything, once the lookups have found a group, its latest snapshot and any given target, the run saves one view of that snapshot. With a target, it also saves one mapping of the view to that target. |
| Scenarios.RunsViewSnapshotTwelve | python/create_view.py:86-94 | Every run for "vg1" with no target or a known target succeeds and creates a view of snapshot 12. |
| Scenarios.ViewWithoutTarget | python/create_view.py:101-102 | Running with "vg1" alone creates the view "daily-12_V" and no mapping. |
| Scenarios.ViewMappedToHost | python/create_view.py:97-100 | Running with "vg1" and "hostA" creates the view and one mapping of it to host 30. |
| Scenarios.ViewMappedToHostGroup | python/create_view.py:72-80 | Running with "vg1" and "groupB", which names only a host group, maps the view to host group 40. |
| Scenarios.UnknownTargetCreatesNothing | python/create_view.py:72-78 | Running with "vg1" and "nothere" aborts with a target not-found error and creates nothing. |
| Scenarios.UnknownGroup | python/create_view.py:37-43 | An unknown volume group aborts with nothing created. |
| Scenarios.WrongArgumentCounts | python/create_view.py:108-117 | One or four command-line entries give a usage error and no store change. |

## Left out

- The REST endpoint, its address, the credentials and the HTTPS warning filter (lines 23-28, 83) are transport configuration. The client library is not part of this model.
- `printTimeStamp` (lines 34-35) reads the wall clock and is never called by the workflow.
- The console messages and the exit status are left out. Failures are the `Error` variants of the outcome, not process termination.
- The statements after `return getHostGroup(...)` (lines 66-68) never run. The unused `retPol` (line 92) is not modelled.
- The array's reasons for refusing a create (quota, name conflict, state) are hidden behind the `admit` parameter of `Workflow.Execute`. It is an arbitrary decision on the store and the candidate record.
- Lookup failures other than "no hit" are not modelled: network errors, or a get failing after its search succeeded. In the model a lookup fails only when its search has no hit. In the script, `getVolume`, `getSnap` and `getHostGroup` report any exception as "not found" (lines 40-43, 51-54, 75-78).
- `Resolve.ResolveTarget`: in `getHost`, any exception in the host search or get, not only "no hit", falls through to `getHostGroup` without a message (lines 62-64). So in the script a host group with the same name wins over an existing host whenever the host lookup raises. The model drops such exceptions, and its "an existing host always wins" depends on dropping them.
- `Resolve.SortAscending`: line 50 passes `__sort=id`, which in Python names the builtin function `id`, not the string "id". The model reads it as the intended ascending sort by record id and does not model what the client library sends for it.
- `Resolve.LatestSnapshot`: a search is modelled as returning every hit, with `total` equal to their number. Paging of search results by the client library is not modelled.
- Concurrent changes to the array between the snapshot search and the view save are left out. A run sees one store throughout.
- Name matching in a search is exact string equality. Any other matching rule of the array is not modelled.

=== FILE: properties.dfy ===
/**
 What a run of the workflow promises about the records it picks and about
 which lookup stops it, relying on the array's invariant that ids are unique
 within a collection.
 */
module Properties {
  import opened Wrappers
  import opened Store
  import opened Resolve
  import opened Workflow

  /** The first record with a given name is one record, duplicates or not. */
  lemma FirstNamedIsUnique(xs: seq<Named>, name: string, a: Named, b: Named)
    requires IsFirstNamed(xs, name, a) && IsFirstNamed(xs, name, b)
    ensures a == b
  {
    var i :| 0 <= i < |xs| && xs[i] == a && a.name == name && forall j :: 0 <= j < i ==> xs[j].name != name;
    var k :| 0 <= k < |xs| && xs[k] == b && b.name == name && forall j :: 0 <= j < k ==> xs[j].name != name;
    assert !(i < k) && !(k < i);
  }

  /**
   The view a run plans is a view of the latest snapshot of the first volume
   group carrying the given name.
   */
  lemma PlannedViewOfLatestSnapshot(s: Store, groupName: string, targetName: Option<string>)
    requires Valid(s)
    ensures Prepare(s, groupName, targetName).Success? ==>
              exists g, t :: && IsFirstNamed(s.volumeGroups, groupName, g)
                             && IsLatestOf(s.snapshots, VolumeGroupSource(g.id), t)
                             && InheritsFrom(Prepare(s, groupName, targetName).value.view, t)
  {
    var p := Prepare(s, groupName, targetName);
    if p.Success? {
      var g := ResolveByName(s.volumeGroups, groupName).value;
      var t := LatestSnapshot(s.snapshots, g).value;
      assert IsFirstNamed(s.volumeGroups, groupName, g) by { assert DistinctIds(s.volumeGroups, NamedId); }
      assert IsLatestOf(s.snapshots, VolumeGroupSource(g.id), t) by { assert DistinctIds(s.snapshots, SnapshotId); }
      assert InheritsFrom(p.value.view, t) by { assert p.value.view == ViewDraft(t); }
    }
  }

  /**
   A created view is sourced from the latest snapshot of the first volume
   group carrying the given name, is named after it with "_V" appended, has
   its retention policy, and is exposable.
   */
  lemma ViewOfLatestSnapshot(s: Store, groupName: string, targetName: Option<string>, admit: (Store, Candidate) -> bool)
    requires Valid(s)
    ensures CreateView(s, groupName, targetName, admit).outcome.Done? ==>
              exists g, t :: && IsFirstNamed(s.volumeGroups, groupName, g)
                             && IsLatestOf(s.snapshots, VolumeGroupSource(g.id), t)
                             && InheritsFrom(DraftOf(CreateView(s, groupName, targetName, admit).outcome.view), t)
  {
    var r := CreateView(s, groupName, targetName, admit);
    if r.outcome.Done? {
      PlannedViewOfLatestSnapshot(s, groupName, targetName);
    }
  }

  /** The snapshot lookup fails exactly when the volume group resolves but has no snapshot. */
  lemma SnapshotLookupFails(s: Store, groupName: string, targetName: Option<string>)
    requires Valid(s)
    ensures Prepare(s, groupName, targetName) == Failure(NotFound(SnapshotLookup)) <==>
              exists g :: IsFirstNamed(s.volumeGroups, groupName, g) && !HasSnapshots(s.snapshots, g)
  {
    var p := Prepare(s, groupName, targetName);
    var found := ResolveByName(s.volumeGroups, groupName);
    assert p == Failure(NotFound(SnapshotLookup)) <==> found.Some? && !HasSnapshots(s.snapshots, found.value) by {
      if found.Some? {
        assert LatestSnapshot(s.snapshots, found.value).None? <==> !HasSnapshots(s.snapshots, found.value);
      }
    }
    if found.Some? {
      assert IsFirstNamed(s.volumeGroups, groupName, found.value) by {
        assert DistinctIds(s.volumeGroups, NamedId);
      }
      forall g | IsFirstNamed(s.volumeGroups, groupName, g)
        ensures g == found.value
      {
        FirstNamedIsUnique(s.volumeGroups, groupName, g, found.value);
      }
    } else {
      assert forall g :: IsFirstNamed(s.volumeGroups, groupName, g) ==> g in s.volumeGroups && g.name == groupName;
    }
  }

  /**
   The target lookup fails exactly when a target name was given, the volume
   group and a snapshot of it were found, and the name is neither a host nor a
   host group.
   */
  lemma TargetLookupFails(s: Store, groupName: string, targetName: Option<string>)
    requires Valid(s)
    ensures Prepare(s, groupName, targetName) == Failure(NotFound(TargetLookup)) <==>
              && targetName.Some?
              && (exists g :: IsFirstNamed(s.volumeGroups, groupName, g) && HasSnapshots(s.snapshots, g))
              && !NameTaken(s.hosts, targetName.value)
              && !NameTaken(s.hostGroups, targetName.value)
  {
    var p := Prepare(s, groupName, targetName);
    var found := ResolveByName(s.volumeGroups, groupName);
    if found.Some? && LatestSnapshot(s.snapshots, found.value).Some? && targetName.Some? {
      var name := targetName.value;
      assert p == Failure(NotFound(TargetLookup)) <==> ResolveTarget(s, name).None?;
      assert IsFirstNamed(s.volumeGroups, groupName, found.value) && HasSnapshots(s.snapshots, found.value);
    } else {
      assert p != Failure(NotFound(TargetLookup));
      if exists g :: IsFirstNamed(s.volumeGroups, groupName, g) && HasSnapshots(s.snapshots, g) {
        var g :| IsFirstNamed(s.volumeGroups, groupName, g) && HasSnapshots(s.snapshots, g);
        assert found.Some?;
        FirstNamedIsUnique(s.volumeGroups, groupName, g, found.value);
      }
    }
  }

  /**
   The mapping goes to the first host with the target name when there is one,
   and to the first host group with that name only when no host has it.
   */
  lemma MappingTargetsHostFirst(s: Store, groupName: string, name: string, admit: (Store, Candidate) -> bool)
    requires Valid(s)
    ensures var r := CreateView(s, groupName, Some(name), admit);
            r.outcome.Done? && NameTaken(s.hosts, name) ==>
              exists h :: IsFirstNamed(s.hosts, name, h) && r.outcome.mapping.value.target == HostRef(h.id)
    ensures var r := CreateView(s, groupName, Some(name), admit);
            r.outcome.Done? && !NameTaken(s.hosts, name) ==>
              exists g :: IsFirstNamed(s.hostGroups, name, g) && r.outcome.mapping.value.target == HostGroupRef(g.id)
  {
    var r := CreateView(s, groupName, Some(name), admit);
    if r.outcome.Done? {
      var target := ResolveTarget(s, name).value;
      assert Prepare(s, groupName, Some(name)).value.target == Some(RefOf(target));
      if NameTaken(s.hosts, name) {
        assert IsFirstNamed(s.hosts, name, target.host);
      } else {
        assert IsFirstNamed(s.hostGroups, name, target.group);
      }
    }
  }

  /**
   The view a run creates is sourced from a snapshot, not from the volume
   group, so running again picks the same latest snapshot as before.
   */
  lemma RerunSelectsSameSnapshot(s: Store, argv: seq<string>, admit: (Store, Candidate) -> bool, group: Named)
    requires Valid(s)
    requires Execute(s, argv, admit).outcome.Done?
    ensures LatestSnapshot(Execute(s, argv, admit).store.snapshots, group) == LatestSnapshot(s.snapshots, group)
  {
    var r := Execute(s, argv, admit);
    var v := r.outcome.view;
    var src := VolumeGroupSource(group.id);
    assert r.store.snapshots == s.snapshots + [v];
    assert v.source.SnapshotSource? by {
      PlannedViewOfLatestSnapshot(s, argv[1], if |argv| == 3 then Some(argv[2]) else None);
    }
    assert forall t :: t in r.store.snapshots && t.source == src ==> t in s.snapshots;
    var before := LatestSnapshot(s.snapshots, group);
    var after := LatestSnapshot(r.store.snapshots, group);
    if before.Some? {
      assert IsLatestOf(r.store.snapshots, src, before.value);
      LatestIsUnique(r.store.snapshots, src, before.value, after.value);
    }
  }
}

=== FILE: resolve.dfy ===
/**
 The lookups of the provisioning script: resolving a volume group, host or
 host group by name (first hit wins), choosing the latest snapshot of a volume
 group (sort the hits ascending by id, take the last), and resolving a mapping
 target as a host first and a host group second.
 */
module Resolve {
  import opened Wrappers
  import opened Store

  /** Some record of `xs` carries `name`. */
  ghost predicate NameTaken(xs: seq<Named>, name: string) {
    exists n :: n in xs && n.name == name
  }

  /** Some snapshot of `snaps` was taken from `group`. */
  ghost predicate HasSnapshots(snaps: seq<Snapshot>, group: Named) {
    exists t :: t in snaps && t.source == VolumeGroupSource(group.id)
  }

  /** `n` is the first record of `xs`, in storage order, that carries `name`. */
  ghost predicate IsFirstNamed(xs: seq<Named>, name: string, n: Named) {
    exists i :: 0 <= i < |xs| && xs[i] == n && n.name == name
                && forall j :: 0 <= j < i ==> xs[j].name != name
  }

  /**
   Search the collection for `name` and get the record of the first hit;
   no hit is the failure the script reports as "error in locating".
   */
  function ResolveByName(xs: seq<Named>, name: string): (r: Option<Named>)
    ensures r.Some? <==> NameTaken(xs, name)
    ensures r.Some? ==> r.value in xs
    ensures r.Some? && DistinctIds(xs, NamedId) ==> IsFirstNamed(xs, name, r.value)
  {
    var named := (n: Named) => n.name == name;
    var hits := Hits(xs, NamedId, named);
    if |hits| == 0 then None
    else
      FirstHit(xs, NamedId, named);
      Get(xs, NamedId, hits[0])
  }

  predicate Sorted(xs: seq<Id>) {
    forall i, j :: 0 <= i < j < |xs| ==> xs[i] <= xs[j]
  }

  function Insert(x: Id, xs: seq<Id>): (r: seq<Id>)
    requires Sorted(xs)
    ensures Sorted(r)
    ensures multiset(r) == multiset(xs) + multiset{x}
    ensures |r| == |xs| + 1
    ensures r[0] == x || (|xs| > 0 && r[0] == xs[0])
  {
    if |xs| == 0 || x <= xs[0] then
      ConsSorted(x, xs);
      [x] + xs
    else
      var tail := Insert(x, xs[1..]);
      assert xs == [xs[0]] + xs[1..];
      assert multiset([xs[0]] + tail) == multiset{xs[0]} + multiset(tail);
      ConsSorted(xs[0], tail);
      [xs[0]] + tail
  }

  /** Putting an element no greater than the head in front keeps a sequence ascending. */
  lemma ConsSorted(h: Id, xs: seq<Id>)
    requires Sorted(xs)
    requires |xs| > 0 ==> h <= xs[0]
    ensures Sorted([h] + xs)
  {
    var r := [h] + xs;
    forall i, j | 0 <= i < j < |r|
      ensures r[i] <= r[j]
    {
      if i > 0 { assert r[i] == xs[i - 1] && r[j] == xs[j - 1]; }
      else { assert r[j] == xs[j - 1]; }
    }
  }

  /** The `__sort` of a search, ascending by id. */
  function SortAscending(xs: seq<Id>): (r: seq<Id>)
    ensures Sorted(r)
    ensures multiset(r) == multiset(xs)
  {
    if |xs| == 0 then []
    else
      assert xs == [xs[0]] + xs[1..];
      Insert(xs[0], SortAscending(xs[1..]))
  }

  /** After sorting, the element at index length - 1 is a hit and no hit exceeds it. */
  lemma LastIsGreatest(hits: seq<Id>, sorted: seq<Id>)
    requires Sorted(sorted) && multiset(sorted) == multiset(hits) && |hits| > 0
    ensures |sorted| == |hits|
    ensures sorted[|hits| - 1] in hits
    ensures forall id :: id in hits ==> id <= sorted[|hits| - 1]
  {
    assert |sorted| == |multiset(sorted)| == |multiset(hits)| == |hits|;
    assert sorted[|hits| - 1] in multiset(hits);
    forall id | id in hits
      ensures id <= sorted[|hits| - 1]
    {
      assert id in multiset(sorted);
    }
  }

  /** `t` is a snapshot taken from `src` whose id is at least that of every other such snapshot. */
  ghost predicate IsLatestOf(snaps: seq<Snapshot>, src: SourceRef, t: Snapshot) {
    && t in snaps
    && t.source == src
    && forall u :: u in snaps && u.source == src ==> u.id <= t.id
  }

  /**
   The snapshot the script treats as the latest of `group`: count the
   snapshots whose source is the group, search them again sorted ascending
   by id, and get the hit at index count - 1. No such snapshot is a failure.
   */
  function LatestSnapshot(snaps: seq<Snapshot>, group: Named): (r: Option<Snapshot>)
    ensures r.Some? <==> HasSnapshots(snaps, group)
    ensures r.Some? ==> r.value in snaps
    ensures r.Some? && DistinctIds(snaps, SnapshotId) ==> IsLatestOf(snaps, VolumeGroupSource(group.id), r.value)
  {
    var src := VolumeGroupSource(group.id);
    var ofGroup := (t: Snapshot) => t.source == src;
    var hits := Hits(snaps, SnapshotId, ofGroup);
    if |hits| == 0 then None
    else
      assert hits[0] in hits;
      var sorted := SortAscending(hits);
      LastHitIsLatest(snaps, src, ofGroup, hits, sorted);
      Get(snaps, SnapshotId, sorted[|hits| - 1])
  }

  /** The snapshot stored under the last sorted hit exists, and with unique ids it is the latest of `src`. */
  lemma LastHitIsLatest(snaps: seq<Snapshot>, src: SourceRef, ofSource: Snapshot -> bool, hits: seq<Id>, sorted: seq<Id>)
    requires forall t :: ofSource(t) == (t.source == src)
    requires hits == Hits(snaps, SnapshotId, ofSource) && |hits| > 0
    requires Sorted(sorted) && multiset(sorted) == multiset(hits)
    ensures |sorted| == |hits|
    ensures Get(snaps, SnapshotId, sorted[|hits| - 1]).Some?
    ensures DistinctIds(snaps, SnapshotId) ==> IsLatestOf(snaps, src, Get(snaps, SnapshotId, sorted[|hits| - 1]).value)
  {
    LastIsGreatest(hits, sorted);
    var last := sorted[|hits| - 1];
    var x :| x in snaps && ofSource(x) && SnapshotId(x) == last;
    var r := Get(snaps, SnapshotId, last);
    assert DistinctIds(snaps, SnapshotId) ==> r.value == x;
    forall u | u in snaps && u.source == src
      ensures u.id <= last
    {
      assert ofSource(u);
    }
  }

  /** Under unique ids there is at most one latest snapshot of a source. */
  lemma LatestIsUnique(snaps: seq<Snapshot>, src: SourceRef, t1: Snapshot, t2: Snapshot)
    requires DistinctIds(snaps, SnapshotId)
    requires IsLatestOf(snaps, src, t1) && IsLatestOf(snaps, src, t2)
    ensures t1 == t2
  {
    var i :| 0 <= i < |snaps| && snaps[i] == t1;
    var j :| 0 <= j < |snaps| && snaps[j] == t2;
    assert SnapshotId(snaps[i]) == SnapshotId(snaps[j]);
  }

  /**
   The explicit reduction a "latest" selection can also be written as: one
   pass keeping the greatest id seen among the group's snapshots. Under unique
   ids it picks the same snapshot as sorting and taking the last hit.
   */
  method LatestByMax(snaps: seq<Snapshot>, group: Named) returns (r: Option<Snapshot>)
    ensures r.Some? <==> HasSnapshots(snaps, group)
    ensures r.Some? ==> IsLatestOf(snaps, VolumeGroupSource(group.id), r.value)
    ensures DistinctIds(snaps, SnapshotId) ==> r == LatestSnapshot(snaps, group)
  {
    var src := VolumeGroupSource(group.id);
    r := None;
    var i := 0;
    while i < |snaps|
      invariant 0 <= i <= |snaps|
      invariant r.None? <==> forall j :: 0 <= j < i ==> snaps[j].source != src
      invariant r.Some? ==> r.value in snaps && r.value.source == src
      invariant r.Some? ==> forall j :: 0 <= j < i && snaps[j].source == src ==> snaps[j].id <= r.value.id
    {
      if snaps[i].source == src && (r.None? || r.value.id < snaps[i].id) {
        r := Some(snaps[i]);
      }
      i := i + 1;
    }
    if DistinctIds(snaps, SnapshotId) && r.Some? {
      LatestIsUnique(snaps, src, r.value, LatestSnapshot(snaps, group).value);
    }
  }

  /** The object a mapping is made to: a host, or failing that a host group. */
  datatype Target = HostTarget(host: Named) | HostGroupTarget(group: Named)

  function RefOf(t: Target): TargetRef {
    match t
    case HostTarget(h) => HostRef(h.id)
    case HostGroupTarget(g) => HostGroupRef(g.id)
  }

  /**
   Resolve the target name as a host; only when that lookup fails is the
   host-group collection searched. Neither matching is a failure.
   */
  function ResolveTarget(s: Store, name: string): (r: Option<Target>)
    ensures r.Some? <==> NameTaken(s.hosts, name) || NameTaken(s.hostGroups, name)
    ensures NameTaken(s.hosts, name) ==> r.Some? && r.value.HostTarget?
    ensures r.Some? && r.value.HostTarget? ==> r.value.host in s.hosts
    ensures r.Some? && r.value.HostTarget? && DistinctIds(s.hosts, NamedId) ==> IsFirstNamed(s.hosts, name, r.value.host)
    ensures r.Some? && r.value.HostGroupTarget? ==> r.value.group in s.hostGroups
    ensures r.Some? && r.value.HostGroupTarget? && DistinctIds(s.hostGroups, NamedId) ==> IsFirstNamed(s.hostGroups, name, r.value.group)
  {
    match ResolveByName(s.hosts, name)
    case Some(h) => Some(HostTarget(h))
    case None =>
      match ResolveByName(s.hostGroups, name)
      case Some(g) => Some(HostGroupTarget(g))
      case None => None
  }
}

=== FILE: scenarios.dfy ===
/**
 Runs against a small example array: volume group "vg1" with snapshots 10,
 11 and 12, a second volume group with snapshot 20, a host "hostA" and a host
 group "groupB". Each run's result follows from the general properties of the
 workflow, whatever order the array stores the records in.
 */
module Scenarios {
  import opened Wrappers
  import opened Store
  import opened Resolve
  import opened Workflow
  import opened Properties

  const Vg1 := Named(1, "vg1")
  const Vg2 := Named(2, "vg2")
  const Snap10 := Snapshot(10, VolumeGroupSource(1), "daily-10", 7, false)
  const Snap11 := Snapshot(11, VolumeGroupSource(1), "daily-11", 7, false)
  const Snap12 := Snapshot(12, VolumeGroupSource(1), "daily-12", 8, false)
  const Snap20 := Snapshot(20, VolumeGroupSource(2), "other-20", 7, false)
  const HostA := Named(30, "hostA")
  const GroupB := Named(40, "groupB")

  /** The example array, with snapshot 12 stored neither first nor last. */
  const Array := Store([Vg1, Vg2], [Snap11, Snap12, Snap20, Snap10], [HostA], [GroupB], [], 50)

  /** A valid store holding exactly the example records, in any storage order, and no mapping. */
  ghost predicate IsExample(s: Store) {
    && Valid(s)
    && (forall g :: g in s.volumeGroups <==> g == Vg1 || g == Vg2)
    && (forall t :: t in s.snapshots <==> t == Snap10 || t == Snap11 || t == Snap12 || t == Snap20)
    && (forall h :: h in s.hosts <==> h == HostA)
    && (forall g :: g in s.hostGroups <==> g == GroupB)
    && |s.mappings| == 0
  }

  /** An array that accepts every creation. */
  function AcceptAll(s: Store, c: Candidate): bool { true }

  lemma ArrayIsExample()
    ensures IsExample(Array)
  {
  }

  /** Snapshot 12 is the latest of "vg1", wherever it is stored. */
  lemma LatestOfVg1IsTwelve(s: Store)
    requires IsExample(s)
    ensures LatestSnapshot(s.snapshots, Vg1) == Some(Snap12)
  {
    var src := VolumeGroupSource(1);
    var r := LatestSnapshot(s.snapshots, Vg1);
    assert IsLatestOf(s.snapshots, src, Snap12);
    LatestIsUnique(s.snapshots, src, r.value, Snap12);
  }

  /** "vg1" names only the first volume group. */
  lemma Vg1ResolvesToVg1(s: Store)
    requires IsExample(s)
    ensures ResolveByName(s.volumeGroups, "vg1") == Some(Vg1)
  {
    assert Vg1 in s.volumeGroups;
    var g := ResolveByName(s.volumeGroups, "vg1").value;
    assert IsFirstNamed(s.volumeGroups, "vg1", g);
  }

  /** "hostA" names a host, so it resolves to that host. */
  lemma HostAResolvesToHost(s: Store)
    requires IsExample(s)
    ensures ResolveTarget(s, "hostA") == Some(HostTarget(HostA))
  {
    assert HostA in s.hosts;
    var t := ResolveTarget(s, "hostA").value;
    assert IsFirstNamed(s.hosts, "hostA", t.host);
  }

  /** "groupB" names no host but a host group, so it falls back to that host group. */
  lemma GroupBResolvesToHostGroup(s: Store)
    requires IsExample(s)
    ensures ResolveTarget(s, "groupB") == Some(HostGroupTarget(GroupB))
  {
    assert GroupB in s.hostGroups;
    assert !exists h :: h in s.hosts && h.name == "groupB";
    var t := ResolveTarget(s, "groupB").value;
    assert IsFirstNamed(s.hostGroups, "groupB", t.group);
  }

  /**
   On an array that accepts every creation, a run whose volume group
   resolves to `g`, whose latest snapshot is `t`, and whose target name, if
   given, resolves, creates a view of `t` and, with a target, exactly one
   mapping of the view to it. Stated for any store, so that the proof for
   the example array sees only the lookups' results.
   */
  lemma RunOfResolved(s: Store, groupName: string, targetName: Option<string>, g: Named, t: Snapshot)
    requires ResolveByName(s.volumeGroups, groupName) == Some(g)
    requires LatestSnapshot(s.snapshots, g) == Some(t)
    requires targetName.Some? ==> ResolveTarget(s, targetName.value).Some?
    ensures var r := CreateView(s, groupName, targetName, AcceptAll);
            && r.outcome.Done?
            && DraftOf(r.outcome.view) == ViewDraft(t)
            && r.store.snapshots == s.snapshots + [r.outcome.view]
            && (targetName.None? ==> r.store.mappings == s.mappings)
            && (targetName.Some? ==>
                  r.store.mappings == s.mappings + [Mapping(r.outcome.mapping.value.id, r.outcome.view.id, RefOf(ResolveTarget(s, targetName.value).value))])
  {
    var plan := Prepare(s, groupName, targetName).value;
    assert plan.view == ViewDraft(t);
    assert targetName.Some? ==> plan.target == Some(RefOf(ResolveTarget(s, targetName.value).value));
    assert forall st, c :: AcceptAll(st, c);
  }

  /**
   A run for "vg1" whose target, if any, is a known host or host group
   succeeds on an array that accepts every creation, and creates a view of
   snapshot 12.
   */
  lemma RunsViewSnapshotTwelve(s: Store, targetName: Option<string>)
    requires IsExample(s)
    requires targetName.Some? ==> NameTaken(s.hosts, targetName.value) || NameTaken(s.hostGroups, targetName.value)
    ensures CreateView(s, "vg1", targetName, AcceptAll).outcome.Done?
    ensures InheritsFrom(DraftOf(CreateView(s, "vg1", targetName, AcceptAll).outcome.view), Snap12)
  {
    Vg1ResolvesToVg1(s);
    LatestOfVg1IsTwelve(s);
    RunOfResolved(s, "vg1", targetName, Vg1, Snap12);
  }

  /** A view of snapshot 12 is named "daily-12_V". */
  lemma ViewNameOfTwelve()
    ensures ViewDraft(Snap12).shortName == "daily-12_V"
  {
  }

  lemma ViewWithoutTarget(s: Store)
    requires IsExample(s)
    ensures var r := Execute(s, ["create_view.py", "vg1"], AcceptAll);
            && r.outcome.Done?
            && r.outcome.mapping.None?
            && r.outcome.view.shortName == "daily-12_V"
            && r.store.snapshots == s.snapshots + [r.outcome.view]
            && r.store.mappings == []
  {
    assert Execute(s, ["create_view.py", "vg1"], AcceptAll) == CreateView(s, "vg1", None, AcceptAll);
    Vg1ResolvesToVg1(s);
    LatestOfVg1IsTwelve(s);
    RunOfResolved(s, "vg1", None, Vg1, Snap12);
    assert s.mappings == [];
    ViewNameOfTwelve();
  }

  lemma ViewMappedToHost(s: Store)
    requires IsExample(s)
    ensures var r := Execute(s, ["create_view.py", "vg1", "hostA"], AcceptAll);
            && r.outcome.Done?
            && r.outcome.view.shortName == "daily-12_V"
            && r.store.mappings == [Mapping(r.outcome.mapping.value.id, r.outcome.view.id, HostRef(30))]
  {
    assert Execute(s, ["create_view.py", "vg1", "hostA"], AcceptAll) == CreateView(s, "vg1", Some("hostA"), AcceptAll);
    Vg1ResolvesToVg1(s);
    LatestOfVg1IsTwelve(s);
    HostAResolvesToHost(s);
    RunOfResolved(s, "vg1", Some("hostA"), Vg1, Snap12);
    assert s.mappings == [];
    ViewNameOfTwelve();
  }

  lemma ViewMappedToHostGroup(s: Store)
    requires IsExample(s)
    ensures var r := Execute(s, ["create_view.py", "vg1", "groupB"], AcceptAll);
            && r.outcome.Done?
            && r.outcome.view.shortName == "daily-12_V"
            && r.store.mappings == [Mapping(r.outcome.mapping.value.id, r.outcome.view.id, HostGroupRef(40))]
  {
    assert Execute(s, ["create_view.py", "vg1", "groupB"], AcceptAll) == CreateView(s, "vg1", Some("groupB"), AcceptAll);
    Vg1ResolvesToVg1(s);
    LatestOfVg1IsTwelve(s);
    GroupBResolvesToHostGroup(s);
    RunOfResolved(s, "vg1", Some("groupB"), Vg1, Snap12);
    assert s.mappings == [];
    ViewNameOfTwelve();
  }

  lemma UnknownTargetCreatesNothing(s: Store)
    requires IsExample(s)
    ensures Execute(s, ["create_view.py", "vg1", "nothere"], AcceptAll) == Run(Aborted(NotFound(TargetLookup)), s)
  {
    assert !NameTaken(s.hosts, "nothere") && !NameTaken(s.hostGroups, "nothere");
    assert Vg1 in s.volumeGroups && Snap12 in s.snapshots;
    var g := ResolveByName(s.volumeGroups, "vg1").value;
    assert IsFirstNamed(s.volumeGroups, "vg1", g) && HasSnapshots(s.snapshots, g);
    TargetLookupFails(s, "vg1", Some("nothere"));
  }

  lemma UnknownGroup(s: Store)
    requires IsExample(s)
    ensures Execute(s, ["create_view.py", "vg9"], AcceptAll) == Run(Aborted(NotFound(VolumeGroupLookup)), s)
  {
  }

  lemma WrongArgumentCounts(s: Store)
    requires IsExample(s)
    ensures Execute(s, ["create_view.py"], AcceptAll) == Run(Aborted(UsageError), s)
    ensures Execute(s, ["create_view.py", "vg1", "hostA", "extra"], AcceptAll) == Run(Aborted(UsageError), s)
  {
  }
}

=== FILE: store.dfy ===
/**
 The storage array's control plane, seen as an in-memory store.

 Every collection the provisioning script touches (volume groups, snapshots,
 hosts, host groups, mappings) is a sequence of records in storage order. The
 store offers the three calls the script makes through its REST client:
 search with a filter (hit ids, in storage order), get by id, and create
 (append a record under a fresh id).
 */
module Store {
  import opened Wrappers

  type Id = nat

  /** A volume group, host or host group: the workflow only reads their id and name. */
  datatype Named = Named(id: Id, name: string)

  /** What a snapshot-shaped object was taken from: a volume group, or (for a view) a snapshot. */
  datatype SourceRef = VolumeGroupSource(group: Id) | SnapshotSource(snapshot: Id)

  /**
   A record of the "snapshots" collection. Views live in the same collection:
   they are snapshots whose source is another snapshot. `retentionPolicy` is
   the id of the retention-policy object the record refers to.
   */
  datatype Snapshot = Snapshot(id: Id, source: SourceRef, shortName: string, retentionPolicy: Id, isExposable: bool)

  /** The attributes of a snapshot-shaped object that has not been saved yet. */
  datatype Draft = Draft(source: SourceRef, shortName: string, retentionPolicy: Id, isExposable: bool)

  /** The attributes of a saved snapshot-shaped record, without its id. */
  function DraftOf(t: Snapshot): Draft {
    Draft(t.source, t.shortName, t.retentionPolicy, t.isExposable)
  }

  /** A mapping target: a host or a host group, by id. */
  datatype TargetRef = HostRef(host: Id) | HostGroupRef(group: Id)

  /** A mapping exposes the volume (here: a view) with id `volume` to `target`. */
  datatype Mapping = Mapping(id: Id, volume: Id, target: TargetRef)

  datatype Store = Store(
    volumeGroups: seq<Named>,
    snapshots: seq<Snapshot>,
    hosts: seq<Named>,
    hostGroups: seq<Named>,
    mappings: seq<Mapping>,
    nextId: Id)

  function NamedId(n: Named): Id { n.id }
  function SnapshotId(t: Snapshot): Id { t.id }
  function MappingId(m: Mapping): Id { m.id }

  /** No two records of `xs` share an id. */
  predicate DistinctIds<T>(xs: seq<T>, key: T -> Id) {
    forall i, j :: 0 <= i < j < |xs| ==> key(xs[i]) != key(xs[j])
  }

  /** Every record of `xs` has an id below `bound`. */
  predicate IdsBelow<T>(xs: seq<T>, key: T -> Id, bound: Id) {
    forall i :: 0 <= i < |xs| ==> key(xs[i]) < bound
  }

  predicate WellKeyed<T>(xs: seq<T>, key: T -> Id, bound: Id) {
    DistinctIds(xs, key) && IdsBelow(xs, key, bound)
  }

  /**
   The array's own invariant: ids are unique within each collection, and
   `nextId` has not been handed out yet.
   */
  predicate Valid(s: Store) {
    && WellKeyed(s.volumeGroups, NamedId, s.nextId)
    && WellKeyed(s.snapshots, SnapshotId, s.nextId)
    && WellKeyed(s.hosts, NamedId, s.nextId)
    && WellKeyed(s.hostGroups, NamedId, s.nextId)
    && WellKeyed(s.mappings, MappingId, s.nextId)
  }

  /** How many records of `xs` pass the filter `p`. */
  ghost function CountPassing<T>(xs: seq<T>, p: T -> bool): nat {
    if |xs| == 0 then 0 else (if p(xs[0]) then 1 else 0) + CountPassing(xs[1..], p)
  }

  /** Search: the ids of the records that pass the filter `p`, in storage order. */
  function Hits<T>(xs: seq<T>, key: T -> Id, p: T -> bool): (r: seq<Id>)
    ensures |r| == CountPassing(xs, p) <= |xs|
    ensures forall id :: id in r ==> exists x :: x in xs && p(x) && key(x) == id
    ensures forall x :: x in xs && p(x) ==> key(x) in r
  {
    if |xs| == 0 then []
    else
      var rest := Hits(xs[1..], key, p);
      assert forall x :: x in xs ==> x == xs[0] || x in xs[1..];
      assert forall id :: id in rest ==> exists x :: x in xs && p(x) && key(x) == id by {
        forall id | id in rest
          ensures exists x :: x in xs && p(x) && key(x) == id
        {
          var x :| x in xs[1..] && p(x) && key(x) == id;
          assert x in xs;
        }
      }
      assert CountPassing(xs, p) == (if p(xs[0]) then 1 else 0) + CountPassing(xs[1..], p);
      if p(xs[0]) then [key(xs[0])] + rest else rest
  }

  /** The first hit of a search names the first record that passes the filter. */
  lemma {:induction false} FirstHit<T>(xs: seq<T>, key: T -> Id, p: T -> bool)
    requires |Hits(xs, key, p)| > 0
    ensures exists i :: 0 <= i < |xs| && p(xs[i]) && key(xs[i]) == Hits(xs, key, p)[0]
                        && forall j :: 0 <= j < i ==> !p(xs[j])
  {
    if p(xs[0]) {
      assert key(xs[0]) == Hits(xs, key, p)[0];
    } else {
      FirstHit(xs[1..], key, p);
      var i' :| 0 <= i' < |xs[1..]| && p(xs[1..][i']) && key(xs[1..][i']) == Hits(xs[1..], key, p)[0]
                && forall j :: 0 <= j < i' ==> !p(xs[1..][j]);
      assert p(xs[i' + 1]) && key(xs[i' + 1]) == Hits(xs, key, p)[0];
      forall j | 0 <= j < i' + 1
        ensures !p(xs[j])
      {
        if j > 0 { assert xs[j] == xs[1..][j - 1]; }
      }
    }
  }

  /** Get: the first record stored under `id`, if any. */
  function Get<T>(xs: seq<T>, key: T -> Id, id: Id): (r: Option<T>)
    ensures r.Some? <==> exists i :: 0 <= i < |xs| && key(xs[i]) == id
    ensures r.Some? ==> r.value in xs && key(r.value) == id
    ensures DistinctIds(xs, key) ==> forall i :: 0 <= i < |xs| && key(xs[i]) == id ==> r == Some(xs[i])
  {
    if |xs| == 0 then None
    else if key(xs[0]) == id then Some(xs[0])
    else
      var r := Get(xs[1..], key, id);
      assert forall i :: 1 <= i < |xs| ==> xs[i] == xs[1..][i - 1];
      r
  }

  /** Create in the "snapshots" collection: the draft is saved under a fresh id and appended. */
  function CreateSnapshot(s: Store, d: Draft): (r: (Snapshot, Store))
    ensures r.1.snapshots == s.snapshots + [r.0]
    ensures DraftOf(r.0) == d
    ensures r.1 == s.(snapshots := r.1.snapshots, nextId := r.1.nextId)
    ensures Valid(s) ==> Valid(r.1) && forall t :: t in s.snapshots ==> t.id != r.0.id
  {
    var t := Snapshot(s.nextId, d.source, d.shortName, d.retentionPolicy, d.isExposable);
    (t, s.(snapshots := s.snapshots + [t], nextId := s.nextId + 1))
  }

  /** Create in the "mappings" collection: a mapping of `volume` to `target` under a fresh id. */
  function CreateMapping(s: Store, volume: Id, target: TargetRef): (r: (Mapping, Store))
    ensures r.1.mappings == s.mappings + [r.0]
    ensures r.0.volume == volume && r.0.target == target
    ensures r.1 == s.(mappings := r.1.mappings, nextId := r.1.nextId)
    ensures Valid(s) ==> Valid(r.1) && forall m :: m in s.mappings ==> m.id != r.0.id
  {
    var m := Mapping(s.nextId, volume, target);
    (m, s.(mappings := s.mappings + [m], nextId := s.nextId + 1))
  }
}

=== FILE: workflow.dfy ===
/**
 The provisioning workflow of create_view.py: resolve the volume group, pick
 its latest snapshot, build a view of it, resolve the optional mapping target,
 then save the view and, with a target, the mapping. The chain stops at the
 first failure. A run is a pure function from the array's store and the
 command line to an outcome and the store after the run.
 */
module Workflow {
  import opened Wrappers
  import opened Store
  import opened Resolve

  /** Appended to the snapshot's short name to name its view. */
  const ViewSuffix := "_V"

  datatype Lookup = VolumeGroupLookup | SnapshotLookup | TargetLookup
  datatype Creation = ViewCreation | MappingCreation

  /** Why a run stopped: bad argument count, a lookup with no hit, or a creation the array refused. */
  datatype Error = UsageError | NotFound(lookup: Lookup) | CreateFailed(creation: Creation)

  /** A record the script asks the array to create. */
  datatype Candidate = ViewCandidate(view: Draft) | MappingCandidate(volume: Id, target: TargetRef)

  datatype Outcome = Done(view: Snapshot, mapping: Option<Mapping>) | Aborted(error: Error)

  datatype Run = Run(outcome: Outcome, store: Store)

  /** The unsaved view of `snap`, as the script fills in its attributes before saving. */
  function ViewDraft(snap: Snapshot): (v: Draft)
    ensures InheritsFrom(v, snap)
    ensures forall w :: InheritsFrom(w, snap) ==> w == v
  {
    Draft(SnapshotSource(snap.id), snap.shortName + ViewSuffix, snap.retentionPolicy, true)
  }

  /** `v` describes a view of `snap`: sourced from it, named after it, same retention policy, exposable. */
  ghost predicate InheritsFrom(v: Draft, snap: Snapshot) {
    && v.source == SnapshotSource(snap.id)
    && v.shortName == snap.shortName + ViewSuffix
    && v.retentionPolicy == snap.retentionPolicy
    && v.isExposable
  }

  /** `s'` is `s` with the single view `v` appended to the snapshots, and nothing else created. */
  ghost predicate AddsView(s: Store, s': Store, v: Snapshot) {
    && s'.snapshots == s.snapshots + [v]
    && s' == s.(snapshots := s'.snapshots, nextId := s'.nextId)
  }

  /** `s'` is `s` with the single view `v` and the single mapping `m` appended. */
  ghost predicate AddsViewAndMapping(s: Store, s': Store, v: Snapshot, m: Mapping) {
    && s'.snapshots == s.snapshots + [v]
    && s'.mappings == s.mappings + [m]
    && s' == s.(snapshots := s'.snapshots, mappings := s'.mappings, nextId := s'.nextId)
  }

  /**
   Volume groups, hosts and host groups are only read; snapshots and mappings
   only grow at the end, so no existing record is changed or removed.
   */
  ghost predicate OnlyAppends(s: Store, s': Store) {
    && s'.volumeGroups == s.volumeGroups
    && s'.hosts == s.hosts
    && s'.hostGroups == s.hostGroups
    && s.snapshots <= s'.snapshots
    && s.mappings <= s'.mappings
  }

  /** What the lookups of a run decide: the view to save and the target to map it to, if any. */
  datatype Plan = Plan(view: Draft, target: Option<TargetRef>)

  /**
   The read-only part of createView(): resolve the volume group, select its
   latest snapshot, fill in the view, and resolve the target when a name was
   given. All of it happens before anything is saved.
   */
  function Prepare(s: Store, groupName: string, targetName: Option<string>): (r: Result<Plan, Error>)
    ensures r.Failure? ==> r.error.NotFound?
    ensures r == Failure(NotFound(VolumeGroupLookup)) <==> !NameTaken(s.volumeGroups, groupName)
    ensures r == Failure(NotFound(TargetLookup)) ==> targetName.Some?
    ensures r.Success? ==> (r.value.target.Some? <==> targetName.Some?)
  {
    match ResolveByName(s.volumeGroups, groupName)
    case None => Failure(NotFound(VolumeGroupLookup))
    case Some(group) =>
      match LatestSnapshot(s.snapshots, group)
      case None => Failure(NotFound(SnapshotLookup))
      case Some(snap) =>
        match targetName
        case None => Success(Plan(ViewDraft(snap), None))
        case Some(name) =>
          match ResolveTarget(s, name)
          case None => Failure(NotFound(TargetLookup))
          case Some(target) => Success(Plan(ViewDraft(snap), Some(RefOf(target))))
  }

  /**
   view.save(), then (with a target) the mapping's save(). The array decides,
   through `admit`, whether it accepts each creation; a refused view leaves
   the store as it was, a refused mapping leaves the saved view behind.
   */
  function Persist(s: Store, draft: Draft, target: Option<TargetRef>, admit: (Store, Candidate) -> bool): (r: Run)
    ensures r.outcome.Done? ==> DraftOf(r.outcome.view) == draft
    ensures r.outcome.Done? ==> (r.outcome.mapping.Some? <==> target.Some?)
    ensures r.outcome.Done? && target.None? ==> AddsView(s, r.store, r.outcome.view)
    ensures r.outcome.Done? && target.Some? ==> AddsViewAndMapping(s, r.store, r.outcome.view, r.outcome.mapping.value)
    ensures r.outcome.Done? && target.Some? ==> r.outcome.mapping.value.volume == r.outcome.view.id
    ensures r.outcome.Done? && target.Some? ==> r.outcome.mapping.value.target == target.value
    ensures r.outcome == Aborted(CreateFailed(ViewCreation)) <==> !admit(s, ViewCandidate(draft))
    ensures r.outcome == Aborted(CreateFailed(ViewCreation)) ==> r.store == s
    ensures r.outcome == Aborted(CreateFailed(MappingCreation)) ==> target.Some? && exists v :: DraftOf(v) == draft && AddsView(s, r.store, v)
    ensures r.outcome == Aborted(CreateFailed(MappingCreation)) <==>
              && target.Some?
              && admit(s, ViewCandidate(draft))
              && !admit(CreateSnapshot(s, draft).1, MappingCandidate(CreateSnapshot(s, draft).0.id, target.value))
    ensures r.outcome.Aborted? ==> r.outcome.error.CreateFailed?
    ensures (forall st, c :: admit(st, c)) ==> r.outcome.Done?
    ensures OnlyAppends(s, r.store)
    ensures Valid(s) ==> Valid(r.store)
    ensures Valid(s) && r.outcome.Done? ==> forall t :: t in s.snapshots ==> t.id != r.outcome.view.id
  {
    if !admit(s, ViewCandidate(draft)) then Run(Aborted(CreateFailed(ViewCreation)), s)
    else
      var (view, s1) := CreateSnapshot(s, draft);
      match target
      case None => Run(Done(view, None), s1)
      case Some(t) =>
        assert AddsView(s, s1, view);
        if !admit(s1, MappingCandidate(view.id, t)) then Run(Aborted(CreateFailed(MappingCreation)), s1)
        else
          var (mapping, s2) := CreateMapping(s1, view.id, t);
          Run(Done(view, Some(mapping)), s2)
  }

  /**
   createView(): the lookups, then the saves. Because the target is resolved
   before the view is saved, a failed lookup of any kind creates nothing.
   */
  function CreateView(s: Store, groupName: string, targetName: Option<string>, admit: (Store, Candidate) -> bool): (r: Run)
    ensures Prepare(s, groupName, targetName).Failure? ==> r == Run(Aborted(Prepare(s, groupName, targetName).error), s)
    ensures r.outcome.Aborted? ==> r.outcome.error.NotFound? || r.outcome.error.CreateFailed?
    ensures r.outcome.Aborted? && r.outcome.error.NotFound? ==> Prepare(s, groupName, targetName).Failure?
    ensures r.outcome.Done? ==> DraftOf(r.outcome.view) == Prepare(s, groupName, targetName).value.view
    ensures r.outcome.Done? ==> (r.outcome.mapping.Some? <==> targetName.Some?)
    ensures r.outcome.Done? && targetName.Some? ==> r.outcome.mapping.value.target == Prepare(s, groupName, targetName).value.target.value
    ensures r.outcome == Aborted(CreateFailed(ViewCreation)) ==> r.store == s
    ensures r.outcome == Aborted(CreateFailed(MappingCreation)) ==>
              targetName.Some? && exists v :: DraftOf(v) == Prepare(s, groupName, targetName).value.view && AddsView(s, r.store, v)
    ensures (forall st, c :: admit(st, c)) && Prepare(s, groupName, targetName).Success? ==> r.outcome.Done?
    ensures Prepare(s, groupName, targetName).Success? ==>
              var plan := Prepare(s, groupName, targetName).value;
              (r.outcome == Aborted(CreateFailed(ViewCreation)) <==> !admit(s, ViewCandidate(plan.view)))
    ensures Prepare(s, groupName, targetName).Success? ==>
              var plan := Prepare(s, groupName, targetName).value;
              (r.outcome == Aborted(CreateFailed(MappingCreation)) <==>
                 && targetName.Some?
                 && admit(s, ViewCandidate(plan.view))
                 && !admit(CreateSnapshot(s, plan.view).1, MappingCandidate(CreateSnapshot(s, plan.view).0.id, plan.target.value)))
    ensures r.outcome.Done? && targetName.None? ==> AddsView(s, r.store, r.outcome.view)
    ensures r.outcome.Done? && targetName.Some? ==> AddsViewAndMapping(s, r.store, r.outcome.view, r.outcome.mapping.value)
    ensures r.outcome.Done? && targetName.Some? ==> r.outcome.mapping.value.volume == r.outcome.view.id
    ensures OnlyAppends(s, r.store)
    ensures Valid(s) ==> Valid(r.store)
  {
    match Prepare(s, groupName, targetName)
    case Failure(e) => Run(Aborted(e), s)
    case Success(plan) => Persist(s, plan.view, plan.target, admit)
  }

  /**
   The script's entry point. The command line `argv` includes the script's
   own name, so one or two user arguments means two or three entries; any
   other count is a usage error that touches nothing.
   */
  function Execute(s: Store, argv: seq<string>, admit: (Store, Candidate) -> bool): (r: Run)
    ensures r.outcome == Aborted(UsageError) <==> |argv| < 2 || |argv| > 3
    ensures r.outcome == Aborted(UsageError) ==> r.store == s
    ensures r.outcome.Done? ==> (r.outcome.mapping.Some? <==> |argv| == 3)
    ensures r.outcome.Done? && |argv| == 2 ==> AddsView(s, r.store, r.outcome.view)
    ensures r.outcome.Done? && |argv| == 3 ==> AddsViewAndMapping(s, r.store, r.outcome.view, r.outcome.mapping.value)
    ensures r.outcome.Aborted? && (r.outcome.error.UsageError? || r.outcome.error.NotFound?) ==> r.store == s
    ensures OnlyAppends(s, r.store)
    ensures Valid(s) ==> Valid(r.store)
  {
    if |argv| < 2 || |argv| > 3 then Run(Aborted(UsageError), s)
    else CreateView(s, argv[1], if |argv| == 3 then Some(argv[2]) else None, admit)
  }
}

=== FILE: wrappers.dfy ===
/** Optional values and results: the model's stand-in for "the call raised". */
module Wrappers {

  datatype Option<+T> = None | Some(value: T)

  datatype Result<+T, +E> = Success(value: T) | Failure(error: E)
}
